=== FILE: README.md ===
# SQLClient command-execution facade, modelled in Dafny

`SQLClient` wraps one ADO.NET `SqlConnection`. Every `ExecuteNonQuery` and
`ExecuteScalar` call builds a
`SqlCommand` (`CreateCommand`), normalises and attaches the caller's
parameters (`AttachParameters`), opens the connection (`OpenConnection`),
asks the driver to execute, and closes the connection again in a `finally`
(`CloseConnection`). Open and close failures are caught and logged; a failed
open turns into a sentinel result (`-1` rows, or a null scalar); failures of
the statement itself propagate. `ExecuteDataTable` also builds the command,
but calls neither `OpenConnection` nor `CloseConnection` and has no
`try`/`finally`: it leaves opening and closing to the adapter's `Fill`.
`Dispose` closes and releases the connection.

The model is functional. The facade is an immutable value (`Connection.Facade`:
connection string, handle, log) and each operation is a pure function from
one facade value to the next. The database driver is an oracle argument
(`SqlClient.Oracle`): whether the open attempt succeeds, what the execution
yields or which error it raises, the connection state it leaves behind, and
whether the close attempt succeeds. The process-wide `LogManager` is the
`log` sequence carried by the facade.

Files:
- `maybe.dfy`: `Option` (a C# reference that may be null) and `Result`.
- `parameters.dfy`: parameter directions and values, normalisation, the
  attachment loop, and the lemmas that pin down what is attached.
- `commands.dfy`: `CreateCommand` and its two argument checks.
- `connection.dfy`: the connection handle, open, close and dispose.
- `sqlclient.dfy`: every `ExecuteNonQuery`, `ExecuteScalar` and
  `ExecuteDataTable` overload, and lemmas over single calls and whole sessions.

Facts about the code that the model keeps:
- `ExecuteScalar` and `ExecuteDataTable` have no transaction overload, and
  there is no DataSet operation.
- A construction error is raised inside the `try`, so the `finally` close
  still runs. On a closed connection that close does nothing.
- Assigning `CommandType.TableDirect` to a `SqlCommand` (SQLClient.cs:187) raises an
  out-of-range argument error. This happens after the text check and before
  the transaction check, so only Text and StoredProcedure commands are built.
- After `Dispose` the connection field is null. A later `ExecuteNonQuery` or
  `ExecuteScalar` call is not refused: reading the state of the null field
  raises inside the `try` blocks of open and close. So the call returns the
  sentinel and logs two errors (`SqlClient.ExecuteAfterDispose`). A later
  `ExecuteDataTable` builds a command without a connection, and the
  adapter's `Fill` raises an invalid-operation error; nothing is logged.
- `Dispose` releases the connection with `_sqlConn.Dispose()`, which closes
  it once more outside any `try`. When the first close was refused and this
  one is refused too, the error leaves `Dispose` and the field keeps the
  connection, so a later `Dispose` tries again.

## Model

| member | source | states |
|---|---|---|
| Parameters.Fix | SQLClient.cs:214-220 | an Input/InputOutput parameter with a null value gets DBNull; every other parameter is left as it is; name and direction never change; the result is never left unset |
| Parameters.AttachParameters | SQLClient.cs:203-225 | the loop over the caller's list: a null list leaves the command's collection alone; otherwise the collection is cleared and ends up as the normalised non-null entries, and the caller's list shows each of its parameters normalised in place |
| Parameters.AttachIsFixedCompact | SQLClient.cs:206-223 | the attached collection equals the caller's non-null entries, in order, each normalised |
| Parameters.AttachedExactly | SQLClient.cs:208-223 | one attached parameter per non-null entry; entry i sits at position Rank(i), the number of non-null entries before it; later entries sit at later positions |
| Parameters.AttachedOnto | SQLClient.cs:210-223 | every attached position comes from some non-null entry of the caller's list, so nothing else is attached |
| Parameters.AttachedNormalised | SQLClient.cs:214-220 | no attached Input or InputOutput parameter holds a null value |
| Parameters.NormaliseIdempotent | SQLClient.cs:214-220 | normalising an already normalised list changes nothing, and attaching it gives the same collection |
| Commands.CreateCommand | SQLClient.cs:182-201 | succeeds exactly when the text is non-null and non-empty, the kind is Text or StoredProcedure, and no stale transaction is given; the checks run in that order (text, then kind, then transaction); a built command carries the kind, text, transaction and attached parameters; a failed construction leaves the caller's parameters untouched |
| Commands.BuiltCommandsNormalised | SQLClient.cs:195-198 | every built command has no unset input parameter |
| Connection.New | SQLClient.cs:25-29 | a new facade holds a closed connection for the given string and has logged nothing |
| Connection.OpenConnection | SQLClient.cs:227-240 | returns true exactly when the connection was already open or the open succeeds, and is then open with nothing logged; an open connection is not re-opened; on failure the handle is unchanged and exactly one open error is logged |
| Connection.CloseConnection | SQLClient.cs:242-252 | a close that meets a closed connection, or succeeds, leaves the connection closed and logs nothing; a close on a null handle or refused by the driver leaves the handle unchanged and logs exactly one close error; it never raises |
| Connection.DisposeCore | SQLClient.cs:266-277 | with disposing set, a live handle is closed, and a failed close logs exactly one close error; the release then raises exactly when that close failed and the release's own close is refused too, keeping the handle; otherwise the handle is released; a null handle, or disposing unset, changes nothing and raises nothing |
| Connection.Dispose | SQLClient.cs:260-264 | the handle is released unless the release raised, in which case it is unchanged; the connection string is kept; the log gains exactly one close error when the close fails, and is unchanged otherwise |
| Connection.OpenIdempotent | SQLClient.cs:231-233 | once an open has succeeded, a second open changes nothing, whatever the driver would answer |
| Connection.CloseIdempotent | SQLClient.cs:246 | once a close has left the connection closed, a second close changes nothing |
| Connection.DisposeIdempotent | SQLClient.cs:268-275 | after a Dispose that raised nothing, a second Dispose changes nothing and raises nothing |
| Connection.DisposeRetriesAfterRaise | SQLClient.cs:270-274 | when the release raised, the field still holds the connection, so a later Dispose whose close succeeds releases it |
| SqlClient.Execute | SQLClient.cs:37-51 | the driver runs exactly when the command was built and the open succeeded; its value is returned or its error propagates, and the parameter clear is skipped when it throws; a failed open returns the sentinel; a construction error propagates; the caller's parameters are as construction left them; the close is attempted on every path and leaves the connection closed unless it fails; the old log is kept and exactly one open error (failed open) and one close error (failed close) are added, nothing else |
| SqlClient.ExecuteNonQuery | SQLClient.cs:35-52 | an argument error for an empty text, an unsupported kind or a stale transaction; the -1 sentinel without a driver call when the open fails; the driver's row count or error otherwise; and the connection closed afterwards when the close succeeds |
| SqlClient.ExecuteNonQueryWithoutTransaction | SQLClient.cs:54-71 | behaves as ExecuteNonQuery with no transaction |
| SqlClient.ExecuteStoredNonQuery | SQLClient.cs:73-90 | behaves as ExecuteNonQuery with kind StoredProcedure |
| SqlClient.ExecuteStoredNonQueryWithoutTransaction | SQLClient.cs:92-109 | behaves as ExecuteNonQuery with kind StoredProcedure and no transaction |
| SqlClient.ExecuteScalar | SQLClient.cs:139-157 | an argument error for an empty text or an unsupported kind; the null sentinel without a driver call when the open fails; the driver's value or error otherwise; and the connection closed afterwards when the close succeeds |
| SqlClient.ExecuteStoredScalar | SQLClient.cs:159-176 | behaves as ExecuteScalar with kind StoredProcedure |
| SqlClient.ExecuteDataTable | SQLClient.cs:111-123 | the facade's handle and log are untouched (no open, no close, nothing logged); there is no sentinel: the table is returned only when the command is built, the facade is not disposed and the fill succeeds; after Dispose a built command raises the adapter's missing-connection error |
| SqlClient.ExecuteStoredDataTable | SQLClient.cs:125-137 | behaves as ExecuteDataTable with kind StoredProcedure |
| SqlClient.OpenFailureDegrades | SQLClient.cs:141-150 | on a closed connection whose open fails, ExecuteNonQuery returns -1 and ExecuteScalar returns null, without a driver call; exactly one open error is logged and nothing else changes |
| SqlClient.DriverFailurePropagates | SQLClient.cs:37-51 | a driver error propagates unchanged and nothing is logged; the connection ends closed |
| SqlClient.ConstructionErrorTouchesNothing | SQLClient.cs:182-193 | an empty text, an unsupported kind or a stale transaction raises an argument error before any I/O; the facade and the caller's parameters are unchanged |
| SqlClient.ExecuteAfterDispose | SQLClient.cs:227-252 | a call after Dispose returns -1 without a driver call and logs one open error and one close error |
| SqlClient.PerformKeepsClosed | SQLClient.cs:37-51 | a call that starts closed and whose close succeeds ends closed; it logs one open error if its open failed and nothing otherwise |
| SqlClient.SessionStaysClosed | SQLClient.cs:35-176 | over any sequence of calls whose closes succeed, the connection is closed between calls; the earlier log is kept; the log grows by exactly one open error per failed open |

## Left out

- Constructor: the connection string lookup in the configuration is not modelled (line 27). `Connection.New` takes the resolved string. A missing key, or a string the connection rejects (line 28), is not modelled either.
- The database driver is not modelled. Open, close, execution and the connection state an execution leaves behind are oracle arguments. So are `SqlDataAdapter.Fill` and its table.
- A failed open or close is assumed to leave the connection state unchanged. That part belongs to the driver.
- `ConnState` has only the three states the facade distinguishes. ADO.NET's Connecting, Executing and Fetching states are left out.
- The logging sink keeps only the context string and an error text. The exception object is not modelled.
- `GC.SuppressFinalize` and finalisation are left out, as is any concurrent use of one instance.
- `AttachParameters` raises an error on a null command (line 205). `CreateCommand` never passes one, so that branch is left out.
- Parameters.AttachParameters: when the driver's collection adds a parameter whose name is empty, it gives that parameter a generated name ("Parameter1", "Parameter2", and so on). That renames the caller's own object too. The model keeps the empty name in both the command's collection and the caller's list, because the renaming is the driver's behaviour, not the facade's.
- The driver's own rule that a parameter can belong to only one command collection is left out. So is what a skipped `Parameters.Clear()` means for reusing parameters after a driver error. The model only records, in `Outcome.cleared`, whether the clear ran.
- The connection field is private, so a caller's live transaction always belongs to another connection. The driver then rejects the transaction/connection mismatch when it executes. The model leaves that to the driver oracle, which may still answer with a result.
- Output parameters get their values back from the procedure. That is driver behaviour and is not modelled.
- Connection.CloseIdempotent: stated only when the first close leaves the connection closed. After a failed close, a second call tries again and can log again.
- SqlClient.ExecuteNonQuery: the -1 sentinel cannot be told apart from a -1 the driver itself returns. The model keeps that ambiguity, as the code does.

=== FILE: commands.dfy ===
/** Command construction: the `CreateCommand` validator of SQLClient. It
    checks the command text, then the transaction, then attaches the
    parameters; both checks fail before any connection is touched. */
module Commands {
  import opened Maybe
  import opened Parameters

  /** System.Data.CommandType. */
  datatype CommandKind = Text | StoredProcedure | TableDirect

  /** A caller's transaction. `connection` becomes null once the transaction
      has been committed or rolled back. */
  datatype Transaction = Transaction(connection: Option<nat>)

  /** A built, not yet executed command. */
  datatype Command = Command(
    kind: CommandKind,
    text: string,
    transaction: Option<Transaction>,
    parameters: seq<Parameter>)

  /** The exceptions that can leave a facade call. */
  datatype Raised =
    | ArgumentNull(paramName: string)
    | ArgumentOutOfRange(paramName: string)
    | Argument(message: string, paramName: string)
    | InvalidOperation(message: string)
    | DriverError(error: string)

  const CommandTextName := "Sql command text"
  const CommandTypeName := "CommandType"
  const TransactionName := "transaction"
  const StaleTransactionMessage :=
    "The transaction was rollbacked or commited, please provide an open transaction."

  /** The command text is neither null nor empty. */
  predicate UsableText(text: Option<string>) {
    text.Some? && |text.value| > 0
  }

  /** The kinds SqlCommand's CommandType setter accepts; it rejects TableDirect. */
  predicate SupportedKind(kind: CommandKind) {
    kind == Text || kind == StoredProcedure
  }

  /** A transaction was given whose connection is already gone. */
  predicate StaleTransaction(tx: Option<Transaction>) {
    tx.Some? && tx.value.connection.None?
  }

  /** CreateCommand gets past all three checks. */
  predicate Buildable(kind: CommandKind, text: Option<string>, tx: Option<Transaction>) {
    UsableText(text) && SupportedKind(kind) && !StaleTransaction(tx)
  }

  /** The outcome of CreateCommand, together with the caller's parameter list
      afterwards (the caller sees the normalisation done to its parameters). */
  datatype Built = Built(command: Result<Command, Raised>, callerParameters: Option<seq<Option<Parameter>>>)

  function CreateCommand(
    kind: CommandKind,
    text: Option<string>,
    tx: Option<Transaction>,
    commandParameters: Option<seq<Option<Parameter>>>): (b: Built)
    // succeeds exactly when neither check fires
    ensures b.command.Success? <==> Buildable(kind, text, tx)
    // the text is checked first, whatever the kind, the transaction and the parameters
    ensures !UsableText(text) ==> b.command == Failure(ArgumentNull(CommandTextName))
    // then the kind, when the command type is assigned
    ensures UsableText(text) && !SupportedKind(kind) ==>
      b.command == Failure(ArgumentOutOfRange(CommandTypeName))
    ensures UsableText(text) && SupportedKind(kind) && StaleTransaction(tx) ==>
      b.command == Failure(Argument(StaleTransactionMessage, TransactionName))
    // a failed construction has not touched the caller's parameters
    ensures b.command.Failure? ==> b.callerParameters == commandParameters
    ensures b.command.Success? ==>
      var c := b.command.value;
      && c.kind == kind && c.text == text.value && c.transaction == tx
      && (commandParameters.None? ==> c.parameters == [] && b.callerParameters.None?)
      && (commandParameters.Some? ==>
            c.parameters == Attach(commandParameters.value)
            && b.callerParameters == Some(Normalise(commandParameters.value)))
  {
    if text.None? || |text.value| == 0 then
      Built(Failure(ArgumentNull(CommandTextName)), commandParameters)
    else if kind == TableDirect then
      Built(Failure(ArgumentOutOfRange(CommandTypeName)), commandParameters)
    else if tx.Some? && tx.value.connection.None? then
      Built(Failure(Argument(StaleTransactionMessage, TransactionName)), commandParameters)
    else
      match commandParameters
      case None => Built(Success(Command(kind, text.value, tx, [])), None)
      case Some(ps) => Built(Success(Command(kind, text.value, tx, Attach(ps))), Some(Normalise(ps)))
  }

  /** Every command that is built carries no unset input parameter. */
  lemma BuiltCommandsNormalised(
    kind: CommandKind,
    text: Option<string>,
    tx: Option<Transaction>,
    commandParameters: Option<seq<Option<Parameter>>>)
    ensures var b := CreateCommand(kind, text, tx, commandParameters);
      b.command.Success? ==>
        forall j :: 0 <= j < |b.command.value.parameters| ==> !Unset(b.command.value.parameters[j])
  {
    if commandParameters.Some? {
      AttachedNormalised(commandParameters.value);
    }
  }
}

=== FILE: connection.dfy ===
/** The connection lifecycle of SQLClient: one connection handle per facade,
    opened and closed around each call, released by Dispose. Open and close
    failures are caught and logged, never thrown. The driver's own behaviour
    (whether an open or close attempt succeeds) is an oracle argument. */
module Connection {
  import opened Maybe

  /** System.Data.ConnectionState, restricted to the states the facade tests. */
  datatype ConnState = Closed | Open | Broken

  /** The `_sqlConn` field: a live connection, or null once disposed. */
  datatype Handle = Live(state: ConnState) | Released

  /** One call of the logging sink's LogError(context, exception). */
  datatype LogEntry = LogEntry(context: string, error: string)

  /** The facade's observable state; `log` is what the facade has sent to the
      logging sink, oldest first. */
  datatype Facade = Facade(connectionString: string, handle: Handle, log: seq<LogEntry>)

  /** The driver's answer to one open or close attempt. */
  datatype Attempt = Succeeds | Fails(error: string)

  const OpenContext := "SQLClient - OpenConnection"
  const CloseContext := "SQLClient - CloseConnection"
  /** Reading the state of a null `_sqlConn` raises this inside the try block. */
  const NullReference := "NullReferenceException"

  /** `log2` is `log1` with exactly one entry added, for `context`. */
  predicate LoggedOnce(log1: seq<LogEntry>, log2: seq<LogEntry>, context: string) {
    |log2| == |log1| + 1 && log2[..|log1|] == log1 && log2[|log1|].context == context
  }

  /** A fresh facade over a resolved connection string: nothing open, nothing logged. */
  function New(connectionString: string): (f: Facade)
    ensures f.handle == Live(Closed) && f.log == [] && f.connectionString == connectionString
  {
    Facade(connectionString, Live(Closed), [])
  }

  datatype Opened = Opened(facade: Facade, ok: bool)

  /** OpenConnection: true when the connection is (now) open, false after a
      logged failure; a connection already open is not re-opened. */
  function OpenConnection(f: Facade, attempt: Attempt): (r: Opened)
    ensures r.facade.connectionString == f.connectionString
    ensures r.ok <==> f.handle == Live(Open) || (f.handle.Live? && attempt.Succeeds?)
    ensures r.ok ==> r.facade.handle == Live(Open) && r.facade.log == f.log
    ensures !r.ok ==> r.facade.handle == f.handle && LoggedOnce(f.log, r.facade.log, OpenContext)
    ensures f.handle == Live(Open) ==> r.facade == f
  {
    match f.handle
    case Released =>
      Opened(f.(log := f.log + [LogEntry(OpenContext, NullReference)]), false)
    case Live(state) =>
      if state == Open then Opened(f, true)
      else match attempt
        case Succeeds => Opened(f.(handle := Live(Open)), true)
        case Fails(e) => Opened(f.(log := f.log + [LogEntry(OpenContext, e)]), false)
  }

  /** A close meeting handle `h` fails: the connection is not closed and either
      the handle is null or the driver refuses the close. */
  predicate CloseFails(h: Handle, attempt: Attempt) {
    h != Live(Closed) && (h.Released? || attempt.Fails?)
  }

  /** CloseConnection: a closed connection is left alone; otherwise a close is
      attempted and a failure is logged, never thrown. */
  function CloseConnection(f: Facade, attempt: Attempt): (g: Facade)
    ensures g.connectionString == f.connectionString
    ensures f.handle == Live(Closed) ==> g == f
    ensures !CloseFails(f.handle, attempt) ==> g == f.(handle := Live(Closed))
    ensures CloseFails(f.handle, attempt) ==>
      g.handle == f.handle && LoggedOnce(f.log, g.log, CloseContext)
  {
    match f.handle
    case Released => f.(log := f.log + [LogEntry(CloseContext, NullReference)])
    case Live(state) =>
      if state == Closed then f
      else match attempt
        case Succeeds => f.(handle := Live(Closed))
        case Fails(e) => f.(log := f.log + [LogEntry(CloseContext, e)])
  }

  /** How a Dispose ended: the facade afterwards, and the error raised by the
      connection's own release, if any. */
  datatype Disposal = Disposal(facade: Facade, raised: Option<string>)

  /** The connection's own release (`_sqlConn.Dispose()`) closes the connection
      once more, outside any try block: it raises exactly when the connection
      is still not closed and the driver refuses that close too. */
  predicate ReleaseFails(h: Handle, release: Attempt) {
    h != Live(Closed) && release.Fails?
  }

  /** Dispose(bool disposing): with `disposing`, a live handle is closed (a
      failure is logged), then released; if the release raises, the error
      leaves Dispose and the field keeps the connection. A null field, or
      `disposing` unset, changes nothing. */
  function DisposeCore(f: Facade, disposing: bool, closing: Attempt, release: Attempt): (d: Disposal)
    ensures !disposing || f.handle.Released? ==> d == Disposal(f, None)
    ensures d.facade.connectionString == f.connectionString
    ensures d.raised.Some? <==>
      disposing && f.handle.Live? && CloseFails(f.handle, closing) && release.Fails?
    ensures d.raised.Some? ==> d.facade.handle == f.handle
    ensures disposing && d.raised.None? ==> d.facade.handle == Released
    ensures disposing && f.handle.Live? && CloseFails(f.handle, closing) ==>
      LoggedOnce(f.log, d.facade.log, CloseContext)
    ensures !(disposing && f.handle.Live? && CloseFails(f.handle, closing)) ==> d.facade.log == f.log
  {
    if disposing && f.handle.Live? then
      var g := CloseConnection(f, closing);
      if ReleaseFails(g.handle, release) then Disposal(g, Some(release.error))
      else Disposal(g.(handle := Released), None)
    else
      Disposal(f, None)
  }

  /** The public Dispose(). */
  function Dispose(f: Facade, closing: Attempt, release: Attempt): (d: Disposal)
    ensures d.facade.connectionString == f.connectionString
    ensures d.raised.None? ==> d.facade.handle == Released
    ensures d.raised.Some? ==> d.facade.handle == f.handle && f.handle.Live?
    ensures f.handle == Live(Closed) ==> d == Disposal(f.(handle := Released), None)
    ensures f.handle.Live? && CloseFails(f.handle, closing) ==> LoggedOnce(f.log, d.facade.log, CloseContext)
    ensures !(f.handle.Live? && CloseFails(f.handle, closing)) ==> d.facade.log == f.log
  {
    DisposeCore(f, true, closing, release)
  }

  /** Opening twice is opening once, whatever the driver would say the second time. */
  lemma OpenIdempotent(f: Facade, first: Attempt, second: Attempt)
    requires OpenConnection(f, first).ok
    ensures OpenConnection(OpenConnection(f, first).facade, second) == OpenConnection(f, first)
  {
  }

  /** Closing twice is closing once, once the first close has left the connection closed. */
  lemma CloseIdempotent(f: Facade, first: Attempt, second: Attempt)
    requires CloseConnection(f, first).handle == Live(Closed)
    ensures CloseConnection(CloseConnection(f, first), second) == CloseConnection(f, first)
  {
  }

  /** After a Dispose that raised nothing, a second Dispose changes nothing and
      raises nothing, whatever the driver would answer. */
  lemma DisposeIdempotent(f: Facade, closing: Attempt, release: Attempt, closing': Attempt, release': Attempt)
    requires Dispose(f, closing, release).raised.None?
    ensures Dispose(Dispose(f, closing, release).facade, closing', release') ==
      Disposal(Dispose(f, closing, release).facade, None)
  {
  }

  /** A Dispose whose release raised leaves the connection in place, so the
      next Dispose closes it again. */
  lemma DisposeRetriesAfterRaise(f: Facade, closing: Attempt, release: Attempt, closing': Attempt)
    requires Dispose(f, closing, release).raised.Some?
    requires closing'.Succeeds?
    ensures Dispose(Dispose(f, closing, release).facade, closing', release).raised.None?
    ensures Dispose(Dispose(f, closing, release).facade, closing', release).facade.handle == Released
  {
  }
}

=== FILE: maybe.dfy ===
/** Small value wrappers shared by the model: `Option` stands for a C# reference
    that may be null, `Result` for a value or the exception raised instead. */
module Maybe {

  datatype Option<+T> = None | Some(value: T)

  datatype Result<+T, +E> = Success(value: T) | Failure(error: E)
}

=== FILE: parameters.dfy ===
/** Parameter normalisation: the `AttachParameters` step of SQLClient.
    Before a command is executed, every Input or InputOutput parameter that
    was never given a value is set to the database null marker, null entries
    of the caller's list are skipped, and the rest are attached in order. */
module Parameters {
  import opened Maybe

  /** System.Data.ParameterDirection. */
  datatype Direction = Input | Output | InputOutput | ReturnValue

  /** What a parameter's `Value` slot holds: `Null` is a C# null (never set),
      `DbNull` is the DBNull.Value marker, `Data` any other object. */
  datatype Value = Null | DbNull | Data(repr: string)

  datatype Parameter = Parameter(name: string, direction: Direction, value: Value)

  /** The directions through which a value is sent to the server. */
  predicate SendsValue(d: Direction) {
    d == Input || d == InputOutput
  }

  /** A parameter the driver could silently default: it sends a value, but none was set. */
  predicate Unset(p: Parameter) {
    SendsValue(p.direction) && p.value == Null
  }

  /** The rewrite applied to one non-null parameter. */
  function Fix(p: Parameter): (q: Parameter)
    ensures q.name == p.name && q.direction == p.direction
    ensures !Unset(q)
    ensures Unset(p) ==> q.value == DbNull
    ensures !Unset(p) ==> q == p
  {
    if Unset(p) then p.(value := DbNull) else p
  }

  function FixEntry(e: Option<Parameter>): Option<Parameter> {
    match e
    case None => None
    case Some(p) => Some(Fix(p))
  }

  /** The caller's list after normalisation. Parameters are shared objects, so
      the rewrite shows through the caller's own list; null entries stay null. */
  function Normalise(ps: seq<Option<Parameter>>): seq<Option<Parameter>> {
    seq(|ps|, i requires 0 <= i < |ps| => FixEntry(ps[i]))
  }

  /** The non-null entries of a list, in their original order. */
  function Compact<T>(xs: seq<Option<T>>): seq<T> {
    if |xs| == 0 then []
    else (if xs[0].Some? then [xs[0].value] else []) + Compact(xs[1..])
  }

  /** The position the entry at index `i` takes once the nulls before it are dropped. */
  function Rank<T>(xs: seq<Option<T>>, i: nat): nat
    requires i <= |xs|
  {
    |Compact(xs[..i])|
  }

  function FixAll(ps: seq<Parameter>): seq<Parameter> {
    seq(|ps|, i requires 0 <= i < |ps| => Fix(ps[i]))
  }

  /** The command's parameter collection after attaching `ps`. */
  function Attach(ps: seq<Option<Parameter>>): seq<Parameter> {
    Compact(Normalise(ps))
  }

  lemma {:induction false} CompactAppend<T>(a: seq<Option<T>>, b: seq<Option<T>>)
    ensures Compact(a + b) == Compact(a) + Compact(b)
    decreases |a|
  {
    if |a| == 0 {
      assert a + b == b;
    } else {
      var head := if a[0].Some? then [a[0].value] else [];
      assert (a + b)[0] == a[0];
      assert (a + b)[1..] == a[1..] + b;
      assert Compact(a + b) == head + Compact(a[1..] + b);
      CompactAppend(a[1..], b);
      assert Compact(a) == head + Compact(a[1..]);
    }
  }

  /** Normalising and then dropping nulls is the same as dropping nulls and then
      fixing every survivor. */
  lemma {:induction false} AttachIsFixedCompact(ps: seq<Option<Parameter>>)
    ensures Attach(ps) == FixAll(Compact(ps))
    decreases |ps|
  {
    if |ps| > 0 {
      assert Normalise(ps)[1..] == Normalise(ps[1..]);
      AttachIsFixedCompact(ps[1..]);
    }
  }

  /** The entry at index `i`, when it is not null, lands at position `Rank(xs, i)`. */
  lemma CompactAt<T>(xs: seq<Option<T>>, i: nat)
    requires i < |xs| && xs[i].Some?
    ensures Rank(xs, i) < |Compact(xs)|
    ensures Compact(xs)[Rank(xs, i)] == xs[i].value
  {
    assert xs == xs[..i] + xs[i..];
    CompactAppend(xs[..i], xs[i..]);
    assert xs[i..][0] == xs[i];
  }

  /** Ranks grow with the index: dropping nulls keeps the relative order. */
  lemma RankMonotone<T>(xs: seq<Option<T>>, i: nat, k: nat)
    requires i < k <= |xs| && xs[i].Some?
    ensures Rank(xs, i) < Rank(xs, k)
  {
    assert xs[..k] == xs[..i] + xs[i..k];
    CompactAppend(xs[..i], xs[i..k]);
    assert xs[i..k][0] == xs[i];
  }

  /** Every position of the compacted list comes from some non-null entry. */
  lemma {:induction false} CompactOnto<T>(xs: seq<Option<T>>, j: nat)
    requires j < |Compact(xs)|
    ensures exists i :: 0 <= i < |xs| && xs[i].Some? && Rank(xs, i) == j
    decreases |xs|
  {
    var head := if xs[0].Some? then [xs[0].value] else [];
    if xs[0].Some? && j == 0 {
      assert xs[..0] == [];
      assert xs[0].Some? && Rank(xs, 0) == 0;
    } else {
      var j' := j - |head|;
      CompactOnto(xs[1..], j');
      var i' :| 0 <= i' < |xs[1..]| && xs[1..][i'].Some? && Rank(xs[1..], i') == j';
      assert xs[..i' + 1] == [xs[0]] + xs[1..][..i'];
      CompactAppend([xs[0]], xs[1..][..i']);
      assert Compact([xs[0]]) == head;
      assert xs[i' + 1].Some? && Rank(xs, i' + 1) == j;
    }
  }

  /** Position `j` of the attached collection holds the normalised entry `i` of the caller's list. */
  predicate AttachedFrom(ps: seq<Option<Parameter>>, i: int, j: int) {
    && 0 <= i < |ps| && ps[i].Some?
    && Rank(ps, i) == j < |Attach(ps)|
    && Attach(ps)[j] == Fix(ps[i].value)
  }

  /** The attached collection is exactly the non-null entries, normalised, in
      their original relative order, and nothing else. */
  lemma AttachedExactly(ps: seq<Option<Parameter>>)
    ensures |Attach(ps)| == |Compact(ps)|
    ensures forall i :: 0 <= i < |ps| && ps[i].Some? ==>
      Rank(ps, i) < |Attach(ps)| && Attach(ps)[Rank(ps, i)] == Fix(ps[i].value)
    ensures forall i, k :: 0 <= i < k < |ps| && ps[i].Some? && ps[k].Some? ==>
      Rank(ps, i) < Rank(ps, k)
  {
    AttachIsFixedCompact(ps);
    forall i | 0 <= i < |ps| && ps[i].Some?
      ensures Rank(ps, i) < |Attach(ps)| && Attach(ps)[Rank(ps, i)] == Fix(ps[i].value)
    {
      CompactAt(ps, i);
    }
    forall i, k | 0 <= i < k < |ps| && ps[i].Some? && ps[k].Some?
      ensures Rank(ps, i) < Rank(ps, k)
    {
      RankMonotone(ps, i, k);
    }
  }

  /** Nothing else is attached: every position comes from a non-null entry of the caller's list. */
  lemma AttachedOnto(ps: seq<Option<Parameter>>, j: int)
    requires 0 <= j < |Attach(ps)|
    ensures exists i :: AttachedFrom(ps, i, j)
  {
    AttachIsFixedCompact(ps);
    CompactOnto(ps, j);
    var i :| 0 <= i < |ps| && ps[i].Some? && Rank(ps, i) == j;
    CompactAt(ps, i);
    assert AttachedFrom(ps, i, j);
  }

  /** No attached parameter is left unset. */
  lemma AttachedNormalised(ps: seq<Option<Parameter>>)
    ensures forall j :: 0 <= j < |Attach(ps)| ==> !Unset(Attach(ps)[j])
  {
    AttachIsFixedCompact(ps);
  }

  /** Normalising an already normalised list changes nothing. */
  lemma NormaliseIdempotent(ps: seq<Option<Parameter>>)
    ensures Normalise(Normalise(ps)) == Normalise(ps)
    ensures Attach(Normalise(ps)) == Attach(ps)
  {
  }

  /** The loop of AttachParameters. `current` is the command's collection before
      the call; a null list leaves it alone, any other list clears it first.
      Returns the command's collection and the caller's list afterwards. */
  method AttachParameters(current: seq<Parameter>, commandParameters: Option<seq<Option<Parameter>>>)
    returns (attached: seq<Parameter>, callers: Option<seq<Option<Parameter>>>)
    ensures commandParameters.None? ==> attached == current && callers == commandParameters
    ensures commandParameters.Some? ==>
      attached == Attach(commandParameters.value)
      && callers == Some(Normalise(commandParameters.value))
  {
    if commandParameters.None? {
      return current, commandParameters;
    }
    var ps := commandParameters.value;
    var list := ps;
    attached := [];
    var i := 0;
    while i < |ps|
      invariant 0 <= i <= |ps|
      invariant attached == Compact(Normalise(ps[..i]))
      invariant |list| == |ps|
      invariant list[..i] == Normalise(ps[..i]) && list[i..] == ps[i..]
    {
      var entry := ps[i];
      if entry.Some? {
        list := list[i := Some(Fix(entry.value))];
        attached := attached + [Fix(entry.value)];
      }
      assert ps[..i + 1] == ps[..i] + [ps[i]];
      assert Normalise(ps[..i + 1]) == Normalise(ps[..i]) + [FixEntry(ps[i])];
      CompactAppend(Normalise(ps[..i]), [FixEntry(ps[i])]);
      i := i + 1;
    }
    assert ps[..i] == ps;
    assert list == list[..i];
    callers := Some(list);
  }
}

=== FILE: sqlclient.dfy ===
/** Execution dispatch of SQLClient: every ExecuteNonQuery / ExecuteScalar
    overload builds the command, tries to open the connection, runs the
    driver only if the open succeeded, and closes the connection in a
    `finally` on every exit path. A failed open degrades to a sentinel
    (-1 or null); a driver failure propagates. ExecuteDataTable leaves the
    connection to the driver's adapter and never opens or closes it itself. */
module SqlClient {
  import opened Maybe
  import opened Parameters
  import opened Commands
  import opened Connection

  /** The C# `int` returned as a row count. */
  newtype int32 = x: int | -0x8000_0000 <= x < 0x8000_0000

  /** The sentinel row count: the connection could not be opened. */
  const NoRows: int32 := -1

  /** What the driver does when asked to execute a built command. */
  datatype Execution<T> = Yields(value: T) | Fails(error: string)

  /** The driver's behaviour during one facade call: the answer to the open
      attempt, the execution, the connection state the execution leaves behind,
      and the answer to the close attempt. */
  datatype Oracle<T> = Oracle(open: Attempt, execution: Execution<T>, afterRun: ConnState, close: Attempt)

  /** How a facade call ended. */
  datatype Completion<T> = Returned(value: T) | Threw(raised: Raised)

  /** Everything a facade call leaves behind: the facade's state, how the call
      ended, the caller's parameter list, whether the driver was asked to
      execute, and whether the command's parameter collection was cleared
      again (skipped when the driver throws). */
  datatype Outcome<T> = Outcome(
    facade: Facade,
    completion: Completion<T>,
    callerParameters: Option<seq<Option<Parameter>>>,
    executed: bool,
    cleared: bool)

  /** The command was built and the open attempt then failed. */
  predicate OpenFailed<T>(f: Facade, kind: CommandKind, text: Option<string>, tx: Option<Transaction>, o: Oracle<T>) {
    Buildable(kind, text, tx) && !OpenConnection(f, o.open).ok
  }

  /** The handle the `finally` close meets: as the driver's execution left it
      when the driver ran, and as the call found it otherwise (a failed open
      leaves the handle alone). */
  function MetAtClose<T>(f: Facade, kind: CommandKind, text: Option<string>, tx: Option<Transaction>, o: Oracle<T>): Handle {
    if Buildable(kind, text, tx) && OpenConnection(f, o.open).ok then Live(o.afterRun) else f.handle
  }

  /** The body shared by every ExecuteNonQuery and ExecuteScalar overload:
      the try block, then the `finally` close. */
  function Execute<T>(
    f: Facade, kind: CommandKind, text: Option<string>, tx: Option<Transaction>,
    commandParameters: Option<seq<Option<Parameter>>>, o: Oracle<T>, sentinel: T): (r: Outcome<T>)
    ensures r.facade.connectionString == f.connectionString
    // the driver runs only for a built command on an opened connection
    ensures r.executed <==> Buildable(kind, text, tx) && OpenConnection(f, o.open).ok
    ensures r.executed ==> match o.execution
      case Yields(v) => r.completion == Returned(v) && r.cleared
      case Fails(e) => r.completion == Threw(DriverError(e)) && !r.cleared
    ensures !r.executed && Buildable(kind, text, tx) ==> r.completion == Returned(sentinel) && r.cleared
    ensures !Buildable(kind, text, tx) ==>
      r.completion == Threw(CreateCommand(kind, text, tx, commandParameters).command.error)
    // the caller sees its parameters exactly as command construction left them
    ensures r.callerParameters == CreateCommand(kind, text, tx, commandParameters).callerParameters
    // the finally block: a close meets the handle the try block left and is always attempted
    ensures var met := MetAtClose(f, kind, text, tx, o);
      && (!CloseFails(met, o.close) ==> r.facade.handle == Live(Closed))
      && (CloseFails(met, o.close) ==> r.facade.handle == met)
    // the log: one open error if the open failed, then one close error if the close failed
    ensures var opens := if OpenFailed(f, kind, text, tx, o) then 1 else 0;
      var closes := if CloseFails(MetAtClose(f, kind, text, tx, o), o.close) then 1 else 0;
      && |r.facade.log| == |f.log| + opens + closes
      && r.facade.log[..|f.log|] == f.log
      && (opens == 1 ==> r.facade.log[|f.log|].context == OpenContext)
      && (closes == 1 ==> r.facade.log[|r.facade.log| - 1].context == CloseContext)
  {
    var built := CreateCommand(kind, text, tx, commandParameters);
    match built.command
    case Failure(e) =>
      Outcome(CloseConnection(f, o.close), Threw(e), built.callerParameters, false, false)
    case Success(_) =>
      var tried := OpenConnection(f, o.open);
      if !tried.ok then
        Outcome(CloseConnection(tried.facade, o.close), Returned(sentinel), built.callerParameters, false, true)
      else
        var running := tried.facade.(handle := Live(o.afterRun));
        match o.execution
        case Yields(v) =>
          Outcome(CloseConnection(running, o.close), Returned(v), built.callerParameters, true, true)
        case Fails(e) =>
          Outcome(CloseConnection(running, o.close), Threw(DriverError(e)), built.callerParameters, true, false)
  }

  /** ExecuteNonQuery(commandType, commandText, transaction, commandParameters). */
  function ExecuteNonQuery(
    f: Facade, kind: CommandKind, text: Option<string>, tx: Option<Transaction>,
    commandParameters: Option<seq<Option<Parameter>>>, o: Oracle<int32>): (r: Outcome<int32>)
    ensures f.handle.Live? && o.close.Succeeds? ==> r.facade.handle == Live(Closed)
    ensures !r.executed && Buildable(kind, text, tx) ==> r.completion == Returned(NoRows)
    ensures !UsableText(text) ==> r.completion == Threw(ArgumentNull(CommandTextName))
    ensures UsableText(text) && !SupportedKind(kind) ==> r.completion == Threw(ArgumentOutOfRange(CommandTypeName))
    ensures UsableText(text) && SupportedKind(kind) && StaleTransaction(tx) ==>
      r.completion == Threw(Argument(StaleTransactionMessage, TransactionName))
    ensures r.executed <==> Buildable(kind, text, tx) && OpenConnection(f, o.open).ok
    ensures r.executed ==>
      (o.execution.Yields? ==> r.completion == Returned(o.execution.value))
      && (o.execution.Fails? ==> r.completion == Threw(DriverError(o.execution.error)))
  {
    Execute(f, kind, text, tx, commandParameters, o, NoRows)
  }

  /** ExecuteNonQuery(commandType, commandText, commandParameters): no transaction. */
  function ExecuteNonQueryWithoutTransaction(
    f: Facade, kind: CommandKind, text: Option<string>,
    commandParameters: Option<seq<Option<Parameter>>>, o: Oracle<int32>): (r: Outcome<int32>)
    ensures r == ExecuteNonQuery(f, kind, text, None, commandParameters, o)
  {
    Execute(f, kind, text, None, commandParameters, o, NoRows)
  }

  /** ExecuteNonQuery(spName, transaction, commandParameters). */
  function ExecuteStoredNonQuery(
    f: Facade, spName: Option<string>, tx: Option<Transaction>,
    commandParameters: Option<seq<Option<Parameter>>>, o: Oracle<int32>): (r: Outcome<int32>)
    ensures r == ExecuteNonQuery(f, StoredProcedure, spName, tx, commandParameters, o)
  {
    Execute(f, StoredProcedure, spName, tx, commandParameters, o, NoRows)
  }

  /** ExecuteNonQuery(spName, commandParameters). */
  function ExecuteStoredNonQueryWithoutTransaction(
    f: Facade, spName: Option<string>,
    commandParameters: Option<seq<Option<Parameter>>>, o: Oracle<int32>): (r: Outcome<int32>)
    ensures r == ExecuteNonQuery(f, StoredProcedure, spName, None, commandParameters, o)
  {
    Execute(f, StoredProcedure, spName, None, commandParameters, o, NoRows)
  }

  /** ExecuteScalar(commandType, commandText, commandParameters): the first column
      of the first row, or null when the connection could not be opened. */
  function ExecuteScalar(
    f: Facade, kind: CommandKind, text: Option<string>,
    commandParameters: Option<seq<Option<Parameter>>>, o: Oracle<Value>): (r: Outcome<Value>)
    ensures f.handle.Live? && o.close.Succeeds? ==> r.facade.handle == Live(Closed)
    ensures !r.executed && Buildable(kind, text, None) ==> r.completion == Returned(Null)
    ensures !UsableText(text) ==> r.completion == Threw(ArgumentNull(CommandTextName))
    ensures UsableText(text) && !SupportedKind(kind) ==> r.completion == Threw(ArgumentOutOfRange(CommandTypeName))
    ensures r.executed <==> Buildable(kind, text, None) && OpenConnection(f, o.open).ok
    ensures r.executed ==>
      (o.execution.Yields? ==> r.completion == Returned(o.execution.value))
      && (o.execution.Fails? ==> r.completion == Threw(DriverError(o.execution.error)))
  {
    Execute(f, kind, text, None, commandParameters, o, Null)
  }

  /** ExecuteScalar(spName, commandParameters). */
  function ExecuteStoredScalar(
    f: Facade, spName: Option<string>,
    commandParameters: Option<seq<Option<Parameter>>>, o: Oracle<Value>): (r: Outcome<Value>)
    ensures r == ExecuteScalar(f, StoredProcedure, spName, commandParameters, o)
  {
    Execute(f, StoredProcedure, spName, None, commandParameters, o, Null)
  }

  /** The opaque result of filling a DataTable. */
  datatype Table = Table(columns: seq<string>, rows: seq<seq<Value>>)

  /** What the adapter raises when the command has no connection, which is the
      case once Dispose has set the connection field to null. */
  const FillWithoutConnection := "Fill: SelectCommand.Connection property has not been initialized."

  /** ExecuteDataTable(commandType, commandText, commandParameters): the adapter
      fills the table and manages the connection itself, so the facade neither
      opens nor closes anything and has no sentinel: every failure propagates.
      After Dispose the command is built without a connection and Fill raises. */
  function ExecuteDataTable(
    f: Facade, kind: CommandKind, text: Option<string>,
    commandParameters: Option<seq<Option<Parameter>>>, fill: Execution<Table>): (r: Outcome<Table>)
    ensures r.facade == f
    ensures r.executed <==> Buildable(kind, text, None) && f.handle.Live?
    ensures r.completion.Returned? <==> Buildable(kind, text, None) && f.handle.Live? && fill.Yields?
    ensures Buildable(kind, text, None) && f.handle.Released? ==>
      r.completion == Threw(InvalidOperation(FillWithoutConnection))
    ensures r.completion.Returned? ==> r.completion.value == fill.value
  {
    var built := CreateCommand(kind, text, None, commandParameters);
    match built.command
    case Failure(e) => Outcome(f, Threw(e), built.callerParameters, false, false)
    case Success(_) =>
      if f.handle.Released? then
        Outcome(f, Threw(InvalidOperation(FillWithoutConnection)), built.callerParameters, false, false)
      else match fill
      case Yields(t) => Outcome(f, Returned(t), built.callerParameters, true, true)
      case Fails(e) => Outcome(f, Threw(DriverError(e)), built.callerParameters, true, false)
  }

  /** ExecuteDataTable(spName, commandParameters). */
  function ExecuteStoredDataTable(
    f: Facade, spName: Option<string>,
    commandParameters: Option<seq<Option<Parameter>>>, fill: Execution<Table>): (r: Outcome<Table>)
    ensures r == ExecuteDataTable(f, StoredProcedure, spName, commandParameters, fill)
  {
    var built := CreateCommand(StoredProcedure, spName, None, commandParameters);
    match built.command
    case Failure(e) => Outcome(f, Threw(e), built.callerParameters, false, false)
    case Success(_) =>
      if f.handle.Released? then
        Outcome(f, Threw(InvalidOperation(FillWithoutConnection)), built.callerParameters, false, false)
      else match fill
      case Yields(t) => Outcome(f, Returned(t), built.callerParameters, true, true)
      case Fails(e) => Outcome(f, Threw(DriverError(e)), built.callerParameters, true, false)
  }

  /** An open failure on a closed connection: the sentinel, no driver call, and
      exactly one logged error; the connection stays closed. */
  lemma OpenFailureDegrades(
    f: Facade, kind: CommandKind, text: Option<string>, tx: Option<Transaction>,
    commandParameters: Option<seq<Option<Parameter>>>, o: Oracle<int32>, so: Oracle<Value>)
    requires f.handle == Live(Closed) && Buildable(kind, text, tx)
    requires o.open.Fails? && so.open.Fails?
    ensures var r := ExecuteNonQuery(f, kind, text, tx, commandParameters, o);
      && r.completion == Returned(NoRows) && !r.executed
      && r.facade == f.(log := f.log + [LogEntry(OpenContext, o.open.error)])
    ensures var r := ExecuteScalar(f, kind, text, commandParameters, so);
      && r.completion == Returned(Null) && !r.executed
      && r.facade == f.(log := f.log + [LogEntry(OpenContext, so.open.error)])
  {
  }

  /** A statement failure propagates unchanged, nothing is logged, and the
      connection still ends closed. */
  lemma DriverFailurePropagates(
    f: Facade, kind: CommandKind, text: Option<string>, tx: Option<Transaction>,
    commandParameters: Option<seq<Option<Parameter>>>, o: Oracle<int32>)
    requires f.handle == Live(Closed) && Buildable(kind, text, tx)
    requires o.open.Succeeds? && o.execution.Fails? && o.close.Succeeds?
    ensures var r := ExecuteNonQuery(f, kind, text, tx, commandParameters, o);
      && r.completion == Threw(DriverError(o.execution.error)) && r.executed
      && r.facade == f
  {
  }

  /** A rejected command does no I/O: on a closed connection the facade is left
      exactly as it was, and the caller's parameters are untouched. */
  lemma ConstructionErrorTouchesNothing(
    f: Facade, kind: CommandKind, text: Option<string>, tx: Option<Transaction>,
    commandParameters: Option<seq<Option<Parameter>>>, o: Oracle<int32>)
    requires f.handle == Live(Closed) && !Buildable(kind, text, tx)
    ensures var r := ExecuteNonQuery(f, kind, text, tx, commandParameters, o);
      && r.completion.Threw? && (!r.completion.raised.DriverError?)
      && !r.executed && r.facade == f && r.callerParameters == commandParameters
  {
  }

  /** After Dispose the handle is null: the open and the close both fail inside
      their try blocks, so the call returns the sentinel and logs twice. */
  lemma ExecuteAfterDispose(
    f: Facade, kind: CommandKind, text: Option<string>, tx: Option<Transaction>,
    commandParameters: Option<seq<Option<Parameter>>>, o: Oracle<int32>)
    requires f.handle == Released && Buildable(kind, text, tx)
    ensures var r := ExecuteNonQuery(f, kind, text, tx, commandParameters, o);
      && r.completion == Returned(NoRows) && !r.executed
      && r.facade == f.(log := f.log + [LogEntry(OpenContext, NullReference), LogEntry(CloseContext, NullReference)])
  {
  }

  /** One call of a caller's session. */
  datatype Call =
    | NonQuery(kind: CommandKind, text: Option<string>, tx: Option<Transaction>,
               parameters: Option<seq<Option<Parameter>>>, rows: Oracle<int32>)
    | Scalar(kind: CommandKind, text: Option<string>,
             parameters: Option<seq<Option<Parameter>>>, scalar: Oracle<Value>)

  function Perform(f: Facade, c: Call): Facade {
    match c
    case NonQuery(kind, text, tx, ps, o) => ExecuteNonQuery(f, kind, text, tx, ps, o).facade
    case Scalar(kind, text, ps, o) => ExecuteScalar(f, kind, text, ps, o).facade
  }

  function Run(f: Facade, calls: seq<Call>): Facade
    decreases |calls|
  {
    if |calls| == 0 then f else Run(Perform(f, calls[0]), calls[1..])
  }

  function CloseOf(c: Call): Attempt {
    match c
    case NonQuery(_, _, _, _, o) => o.close
    case Scalar(_, _, _, o) => o.close
  }

  /** The call reaches the open attempt and the driver refuses it. */
  predicate OpenFails(c: Call) {
    match c
    case NonQuery(kind, text, tx, _, o) => Buildable(kind, text, tx) && o.open.Fails?
    case Scalar(kind, text, _, o) => Buildable(kind, text, None) && o.open.Fails?
  }

  function FailedOpens(calls: seq<Call>): nat
    decreases |calls|
  {
    if |calls| == 0 then 0 else (if OpenFails(calls[0]) then 1 else 0) + FailedOpens(calls[1..])
  }

  /** No call leaves the connection open for the next one, and each call logs at
      most one error: exactly when its open failed. */
  lemma PerformKeepsClosed(f: Facade, c: Call)
    requires f.handle == Live(Closed) && CloseOf(c).Succeeds?
    ensures Perform(f, c).handle == Live(Closed)
    ensures Perform(f, c).connectionString == f.connectionString
    ensures OpenFails(c) ==> LoggedOnce(f.log, Perform(f, c).log, OpenContext)
    ensures !OpenFails(c) ==> Perform(f, c).log == f.log
  {
  }

  /** Over a whole session whose closes all succeed, the connection is closed
      between calls and the log grows by exactly one open error per failed open. */
  lemma {:induction false} SessionStaysClosed(f: Facade, calls: seq<Call>)
    requires f.handle == Live(Closed)
    requires forall i :: 0 <= i < |calls| ==> CloseOf(calls[i]).Succeeds?
    ensures Run(f, calls).handle == Live(Closed)
    ensures |Run(f, calls).log| == |f.log| + FailedOpens(calls)
    ensures Run(f, calls).log[..|f.log|] == f.log
    ensures forall k :: |f.log| <= k < |Run(f, calls).log| ==> Run(f, calls).log[k].context == OpenContext
    decreases |calls|
  {
    if |calls| > 0 {
      var g := Perform(f, calls[0]);
      PerformKeepsClosed(f, calls[0]);
      SessionStaysClosed(g, calls[1..]);
      var h := Run(g, calls[1..]);
      assert h == Run(f, calls);
      assert h.log[..|g.log|] == g.log;
      assert g.log[..|f.log|] == f.log;
      assert h.log[..|f.log|] == h.log[..|g.log|][..|f.log|];
    }
  }
}
